=== FILE: README.md ===
# digitalSathi core, modelled in Dafny

This project models the logic inside digitalSathi, a small web app for artisan product listings and AI-written social posts:

- **Generator page.** The user drops or picks a photo. The page uploads it, asks an analysis service for a caption, hashtags, a mood and a tip, and shows a post preview. The user can copy the post text or open Instagram.
- **Dashboard.** A six-field form stores one product record per submission.
- **Caption service.** A Python handler reacts to a stored product. It reads the product document, labels its image, asks a text model for a caption, and writes the caption and labels back.

Calls to services the code cannot see are parameters of the model: the preview URL, the upload, the analysis, the clipboard, the document store, image labelling and the text model. Each awaited call is an abstract `Outcome`, either succeeded with a value or failed with the thrown value. Two cases are booleans instead, because they throw synchronously rather than settle: whether the page has `navigator.clipboard` at all for the share action, and whether the store client accepts the document path. Every handler is a pure function of its state and those outcomes. It returns the requests it made, in order, and the state it leaves behind.

Modules:

- `Common`: optional values, outcomes, thrown values, files, JavaScript string truthiness.
- `Strings`: JavaScript `startsWith`, `join` and `split`, and substring search.
- `PyText`: Python `str.split` with a separator, and `str.strip()` with Python's whitespace set.
- `PostText`: hashtag normalisation and the post text.
- `PostPreview`: the preview card.
- `UploadZone`: the drop zone.
- `Generator`: the generator page.
- `Dashboard`: the listing form.
- `Backend`: the event handler. An update records the text model's reply and the labels. The `postDescription` it writes is `Update.PostDescription`, which is that reply with `strip()` applied.

Behaviour worth knowing:

- Upload and analysis failures are not told apart on the generator page. Both end with no post, the image still set and the analysing flag cleared.
- Nothing cancels a stale analysis result or revokes a preview URL. While an analysis runs the drop zone is unmounted, so no second upload can start.
- The dashboard stores `price` as the raw input string. It never stores `imageUrl`, because the photo upload is commented out. It does no validation of its own.
- The handler takes the document path with Python's `split("/documents/")[-1]`. Python scans left to right for occurrences that do not overlap. So for a name like `.../documents/documents/x` the result is `documents/x`, not the text after the last occurrence. `Backend.DocPathShape` states what holds in every case.
- Without a hashtag list, `generatedPost.hashtags.map` throws, so copy and share produce nothing. The preview uses `?.` and shows no badges. An absent caption becomes `"undefined"` in the post text but renders as nothing in the preview.

## Model

| member | source | states |
|---|---|---|
| PostText.NormalizeTag | src/app/page.tsx:71 | the result always starts with `#`; it equals the tag exactly when the tag already starts with `#`, and is otherwise `#` plus the tag |
| PostText.NormalizeTagIdempotent | src/app/page.tsx:71 | normalising a normalised tag changes nothing |
| PostText.NormalizeTagNoDoubleHash | src/app/page.tsx:71 | the result starts with `##` exactly when the tag already did, so normalisation never creates a doubled hash |
| PostText.NormalizeTags | src/app/page.tsx:71 | mapping keeps the count and the order: the k-th output is the k-th tag normalised, duplicates included |
| PostText.NormalizeTagsIdempotent | src/app/page.tsx:71 | normalising a normalised tag list changes nothing |
| PostText.ComposePostText | src/app/page.tsx:71 | a text exists exactly when the post has a hashtag list, and it starts with the caption followed by a blank line |
| PostText.HashtagLineTokens | src/app/page.tsx:71 | splitting the hashtag line on spaces gives back exactly the normalised tags in order, for one tag or more and no spaces inside tags |
| PostText.PostTextTokens | src/app/page.tsx:92 | the copied text is the caption, a blank line, then space-separated tokens equal to the normalised tags |
| PostText.UnhashedTagsGainOneHash | src/app/page.tsx:71 | when no tag starts with `#`, the k-th normalised tag is `#` followed by the k-th tag |
| PostText.StubTagsNormalized | src/integrations/Core.js:16 | all eight tags of the stubbed analysis result lack `#`, and normalising them gives the same eight tags, in order, each with exactly one `#` in front |
| PostText.TemplateText | src/app/page.tsx:71 | a present caption is inserted verbatim; an absent one becomes the text `undefined` |
| PostPreview.CaptionAgreement | src/components/generator/PostPreview.jsx:51 | the copied text and the preview card show the same caption exactly when the post has one |
| Strings.SplitJoin | src/app/page.tsx:71 | joining with a one-character separator and splitting again is the identity on pieces free of it |
| PostPreview.Render | src/components/generator/PostPreview.jsx:51-77 | caption verbatim, and nothing when absent; no badges without a hashtag list, else one normalised badge per tag in order; mood line iff mood truthy; tip line iff mood and suggestion both truthy |
| PostPreview.TipNeedsMood | src/components/generator/PostPreview.jsx:68-77 | a tip is never shown without the mood line |
| PostPreview.BadgesMatchPostText | src/components/generator/PostPreview.jsx:62 | whenever the page builds a post text, it is the caption, a blank line and the preview's badges joined by spaces |
| PostPreview.BadgeIsToken | src/components/generator/PostPreview.jsx:56-64 | the k-th badge equals the k-th space-separated token of the copied text's hashtag part |
| UploadZone.FirstImageIndex | src/components/generator/ImageUploadZone.jsx:24-25 | the index found holds an `image/` file and none before it does; none is found exactly when no file is an image |
| UploadZone.FirstImage | src/components/generator/ImageUploadZone.jsx:25 | the file found is an `image/` file with none before it; nothing is found exactly when no file is an image |
| UploadZone.Step | src/components/generator/ImageUploadZone.jsx:10-37 | drag-over sets the flag, drag-leave and drop clear it; a drop forwards the first image file in list order or nothing; a selection forwards `files[0]` exactly when it exists and leaves the flag alone; at most one file per event |
| UploadZone.DragFlagFollowsLastDragEvent | src/components/generator/ImageUploadZone.jsx:10-23 | after any run of events the flag is set exactly when the last drag-over, drag-leave or drop was a drag-over |
| Generator.HandleImageUpload | src/app/page.tsx:23-66 | the preview URL is always requested first; the upload is requested exactly when the preview URL was made, and an analysis exactly when the upload also succeeded, right after it and with file URLs exactly the returned URL; one, two or three requests in all, each at most once; when the preview URL cannot be made the old one stays; while the upload is awaited: image set, post cleared, analysing; at the end not analysing, image still set, a post exactly when every step succeeded |
| Generator.UploadFailureSkipsAnalysis | src/app/page.tsx:34-45 | a failed upload makes no analysis request and leaves no post while the image stays set |
| Generator.ResetUpload | src/app/page.tsx:99-107 | image, preview URL and post are cleared and the analysing flag is false |
| Generator.ResetIdempotent | src/app/page.tsx:99-107 | resetting twice equals resetting once |
| Generator.ResetForgetsUpload | src/app/page.tsx:99-103 | resetting after any upload run gives the same page as resetting before it |
| Generator.HandleCopyToClipboard | src/app/page.tsx:89-97 | nothing happens without a post; text written exactly when the post has a hashtag list; `copied` set only after a successful write; nothing else changes |
| Generator.HandlePostToInstagram | src/app/page.tsx:68-87 | nothing without a post or hashtag list, and nothing when the page has no clipboard; otherwise write the post text, open the app link, then schedule the web link after 1000 ms |
| Generator.ShareAndCopyAgree | src/app/page.tsx:68-97 | where the page has a clipboard, share and copy act on the same pages and put the identical text on the clipboard; without one, share does nothing |
| Generator.VisiblePanels | src/app/page.tsx:135-188 | the left column shows exactly one of drop zone, loading state, image card; preview and actions appear together exactly when there is a post |
| Generator.InitialConsistent | src/app/page.tsx:16-19 | the initial page satisfies the page invariant |
| Generator.HandlersPreserveConsistency | src/app/page.tsx:23-107 | upload (both while awaiting and at the end), reset and copy keep the invariant: analysing only with an image and no post; a post only with its image and URL |
| Generator.PreviewBesideImage | src/app/page.tsx:135-188 | on a consistent page the preview appears only beside the image card, never beside the drop zone |
| Dashboard.ArtisanId | src/app/dashboard/page.tsx:30 | starts with `art_`, followed by a prefix of the generated id of length min(8, its length) |
| Dashboard.ArtisanIdOfUuid | src/app/dashboard/page.tsx:30 | a 36-character UUID gives a 12-character id |
| Dashboard.BuildRecord | src/app/dashboard/page.tsx:51-61 | keys are exactly the id, the six fields and `createdAt`; no `imageUrl`; price is the raw string; `createdAt` is the server timestamp |
| Dashboard.RecordRoundTrip | src/app/dashboard/page.tsx:51-61 | reading the six fields and the id back out of the record gives the form and id unchanged |
| Dashboard.HandleSubmit | src/app/dashboard/page.tsx:24-78 | message cleared and loading set while awaiting; exactly one write to `products` holding the form, the artisan id and the server timestamp as `createdAt`; success empties the fields, image and preview and shows the success text; failure shows the error prefix plus the error's message or the error itself and keeps the fields; loading ends false |
| Dashboard.ErrorDetail | src/app/dashboard/page.tsx:74 | the error's message when it is a non-empty string, otherwise the error's own text |
| Dashboard.OutcomesDistinguishable | src/app/dashboard/page.tsx:63-74 | a failed submission never shows the success message |
| Dashboard.SuccessRestoresInitial | src/app/dashboard/page.tsx:63-72 | after a successful submission the form is back to its initial state apart from the message |
| Dashboard.HandleImageChange | src/app/dashboard/page.tsx:80-86 | no file leaves everything unchanged; a file sets the photo and, when the URL can be made, the preview; form, loading and message are untouched |
| Strings.IndexOfFrom | backend/main.py:30 | the index found is an occurrence and no earlier one exists; none found means no occurrence from that point on |
| Backend.CheckPayload | backend/main.py:30-34 | proceeds exactly when the body is an object whose `value` is an object with a string `name`, and then yields that name; no body, a falsy body, no `value` key, or a `value` object without `name` gives the 400 path; a truthy number or boolean body, a `null`, number or boolean `value`, a string or list `value` that holds `name`, or a `name` that is not a string raises, giving the 500 page |
| Backend.InvalidPayloadCallsNothing | backend/main.py:30-32 | 400 exactly for a rejected payload; without a resource name no store, labelling or text-model call is made |
| PyText.PySplit | backend/main.py:34 | at least one piece, and no piece contains the separator |
| PyText.JoinPySplit | backend/main.py:34 | joining the pieces with the separator gives back the string |
| PyText.LastPieceWhole | backend/main.py:34 | the last piece of the split is the whole string exactly when the separator does not occur |
| PyText.LastPieceShape | backend/main.py:34 | the last piece is a suffix free of the separator; it is the whole string exactly when the separator is absent, else the separator stands right before it |
| Backend.DocPath | backend/main.py:34 | the document path is a suffix of the resource name free of `/documents/`, and the whole name exactly when `/documents/` does not occur |
| Backend.DocPathShape | backend/main.py:34 | the document path is a suffix of the resource name free of `/documents/`; it is the whole name exactly when `/documents/` does not occur, else `/documents/` stands right before it |
| Backend.Descriptions | backend/main.py:61 | the labels are the annotation descriptions in response order, empty when there are none |
| Backend.CaptionPrompt | backend/main.py:67 | the prompt embeds the product name's text, or `N/A` when the field is missing |
| Backend.CaptionPromptEmbedsName | backend/main.py:67 | the prompt starts with the fixed head and ends with the fixed tail, and the text between them is exactly the name used |
| PyText.Strip | backend/main.py:73 | the caption written to `postDescription` neither starts nor ends with whitespace, and sits in the response text with only whitespace around it |
| PyText.StripIdempotent | backend/main.py:73 | stripping a stripped caption changes nothing |
| Backend.HandleEvent | backend/main.py:26-86 | every reply is 200, 400 or 500; 400 exactly for a rejected payload; a payload that raises, or a path the store refuses, gives the 500 page with no calls; a valid payload with an accepted path runs the pipeline on the path taken from the resource name |
| Backend.Pipeline | backend/main.py:37-86 | one to four calls, the first reading the given path; replies 200 or 500, with 200 exactly for a missing document, a missing image URL or success; every update writes to the path that was read |
| Backend.FoundImageIsLabelled | backend/main.py:51-65 | a found document with an image URL is always sent for labelling with at most 10 results, and a labelling failure stops there with its own 500 reply |
| Backend.LabelsLeadToPrompt | backend/main.py:67-77 | once labelling succeeds the text model is always asked with the caption prompt, and its failure stops there with its own 500 reply |
| Backend.CaptionLeadsToUpdate | backend/main.py:79-86 | once the text model answers the update is always written with its reply and the labels; an update failure gets its own 500 reply and a success the OK reply |
| Backend.CallsFollowPipeline | backend/main.py:39-86 | the calls made are a prefix of read, label, generate, update: each at most once and in that order |
| Backend.StepFailuresAreDistinct | backend/main.py:42-86 | for any payload that passes the check and a path the store accepts: a read failure, a missing document or a missing image URL stops after the read with its own reply; for a found document with an image URL, a labelling failure, a text-model failure after successful labelling, or an update failure after both succeeded each gets its own 500 reply; an update happens only after read, labelling and text model all succeeded |
| Backend.PipelineSuccess | backend/main.py:79-83 | when the document is found with an image URL and labelling, text model and update all succeed, the run makes all four calls and replies 200 with `{"status": "ok"}`; conversely that reply comes only from a four-call run whose update succeeded, and the update carries the text model's reply and the labels in order |
| Backend.SuccessMeansFullUpdate | backend/main.py:26-86 | for the whole handler: a valid payload with an accepted path whose steps all succeed gets the 200 `{"status": "ok"}` reply after four calls; conversely that reply comes only from a full run on the path taken from the event whose update succeeded |

## Left out

- External services: Firebase, Firestore, image labelling, the text model, `URL.createObjectURL`, `navigator.clipboard` and `window.open` are outcome parameters or recorded effects, not implementations.
- Timers: the web fallback is recorded as an effect carrying its 1000 ms delay, but it is never run. The two-second timer that clears `copied` is not modelled.
- Concurrency: each handler run is one step, plus the state shown while its first call is awaited. Interleavings between runs are not modelled.
- The analysis prompt text and response schema are fixed constants and are not carried in the `Analyze` request.
- The upload result is modelled as its `file_url` string. A response without that field, which would give `[undefined]`, is not modelled.
- `resetUpload` clearing the file input is a DOM side effect. The input is unmounted whenever the reset button is shown, so it is not modelled.
- Browser form behaviour before `handleSubmit` runs is not modelled: `required` fields, the `type="number"` price check, and the submit button disabled while loading. The handler is modelled for any form contents.
- `console.error`, logging, Flask start-up and client initialisation in backend/main.py:1-22 are not modelled.
- Flask's own request parsing is not modelled (malformed JSON, wrong content type). The payload is the decoded JSON value, or `None`, and JSON numbers are integers.
- Python exceptions outside the handler's `try` blocks become Flask's default 500 page. Whether the store client accepts the document path (`db.document`) is a boolean parameter.
- A JSON `null` field in the analysis result is modelled as absent. The page renders a missing caption as `undefined` and a `null` one as `null`. Only the first case is modelled. Both cases show nothing in the preview, and a `null` hashtag list throws just as a missing one does.
- Product fields other than strings are carried as their truthiness and their `str()` text.
- Character counting: JavaScript's `slice(0, 8)` counts UTF-16 code units, while the model counts Unicode characters. The two agree on the ASCII UUIDs the dashboard generates.
- src/components/generator/LoadingState.jsx is animation markup with no logic. Styling and animation are not modelled.

=== FILE: backend.dfy ===
/** The document-event handler of the caption service: validate the event payload,
    take the document path out of the event's resource name, then read the document,
    label its image, ask the text model for a caption and write caption and labels
    back, stopping at the first step that fails. */
module Backend {
  import opened Common
  import opened Strings
  import opened PyText

  /** A JSON value as the request body decodes it (numbers as integers). */
  datatype Json =
    | JNull
    | JBool(b: bool)
    | JNum(n: int)
    | JStr(s: string)
    | JArr(items: seq<Json>)
    | JObj(fields: map<string, Json>)

  /** Python truthiness of a decoded JSON value. */
  predicate JsonTruthy(j: Json)
  {
    match j
    case JNull => false
    case JBool(b) => b
    case JNum(n) => n != 0
    case JStr(s) => |s| > 0
    case JArr(xs) => |xs| > 0
    case JObj(m) => |m| > 0
  }

  /** Python's `key in j`: a key test on a dict, an element test on a list, a
      substring test on a str; `None` where the operator raises `TypeError`. */
  function PyIn(key: string, j: Json): Option<bool>
  {
    match j
    case JObj(m) => Some(key in m)
    case JArr(xs) => Some(JStr(key) in xs)
    case JStr(s) => Some(Contains(s, key))
    case _ => None
  }

  /** Where the payload check leaves the handler: a 400 reply, an uncaught exception,
      or the resource name to work on. */
  datatype PayloadCheck = Rejected | Raised | ResourceName(name: string)

  /** `event and 'value' in event and 'name' in event['value']`, then
      `event["value"]["name"].split(...)`, with Python's exceptions where they occur. */
  function CheckPayload(event: Option<Json>): (r: PayloadCheck)
    ensures r.ResourceName? <==>
      event.Some? && event.value.JObj? && "value" in event.value.fields
      && event.value.fields["value"].JObj? && "name" in event.value.fields["value"].fields
      && event.value.fields["value"].fields["name"].JStr?
    ensures r.ResourceName? ==> r.name == event.value.fields["value"].fields["name"].s
    ensures event.None? ==> r.Rejected?
    ensures event.Some? && !JsonTruthy(event.value) ==> r.Rejected?
    ensures event.Some? && event.value.JObj? && "value" !in event.value.fields ==> r.Rejected?
    ensures event.Some? && event.value.JObj? && "value" in event.value.fields
      && event.value.fields["value"].JObj? && "name" !in event.value.fields["value"].fields
      ==> r.Rejected?
    ensures event.Some? && (event.value.JNum? || event.value.JBool?) && JsonTruthy(event.value)
      ==> r.Raised?
    ensures event.Some? && event.value.JObj? && "value" in event.value.fields
      && (event.value.fields["value"].JNull? || event.value.fields["value"].JNum?
          || event.value.fields["value"].JBool?)
      ==> r.Raised?
    ensures event.Some? && event.value.JObj? && "value" in event.value.fields
      && !event.value.fields["value"].JObj? && PyIn("name", event.value.fields["value"]) == Some(true)
      ==> r.Raised?
    ensures event.Some? && event.value.JObj? && "value" in event.value.fields
      && event.value.fields["value"].JObj? && "name" in event.value.fields["value"].fields
      && !event.value.fields["value"].fields["name"].JStr?
      ==> r.Raised?
  {
    match event
    case None => Rejected
    case Some(e) =>
      if !JsonTruthy(e) then Rejected
      else match PyIn("value", e)
        case None => Raised
        case Some(false) => Rejected
        case Some(true) =>
          if !e.JObj? then Raised
          else
            var v := e.fields["value"];
            match PyIn("name", v)
            case None => Raised
            case Some(false) => Rejected
            case Some(true) =>
              if !v.JObj? then Raised
              else match v.fields["name"]
                case JStr(n) => ResourceName(n)
                case _ => Raised
  }

  const DocumentsSeparator := "/documents/"

  /** `name.split("/documents/")[-1]`. */
  function DocPath(name: string): (p: string)
    ensures EndsWith(name, p) && !Contains(p, DocumentsSeparator)
    ensures p == name <==> !Contains(name, DocumentsSeparator)
  {
    LastPieceShape(name, DocumentsSeparator);
    Last(PySplit(name, DocumentsSeparator))
  }

  /** The document path is a suffix of the resource name that holds no
      `/documents/`; it is the whole name exactly when the name holds none, and
      otherwise `/documents/` stands right before it. */
  lemma DocPathShape(name: string)
    ensures var p := DocPath(name);
      && EndsWith(name, p)
      && !Contains(p, DocumentsSeparator)
      && (p == name <==> !Contains(name, DocumentsSeparator))
      && (p != name ==> EndsWith(name[..|name| - |p|], DocumentsSeparator))
  {
    LastPieceShape(name, DocumentsSeparator);
  }

  /** A field of the stored product as the handler sees it: a string, or any other
      value through its truthiness and its `str()` text. */
  datatype DocValue = Str(s: string) | NonString(truthy: bool, text: string)

  predicate DocTruthy(v: Option<DocValue>)
  {
    match v
    case None => false
    case Some(Str(s)) => |s| > 0
    case Some(NonString(t, _)) => t
  }

  function PyStr(v: DocValue): string
  {
    match v
    case Str(s) => s
    case NonString(_, text) => text
  }

  type Product = map<string, DocValue>

  function Get(p: Product, key: string): Option<DocValue>
  {
    if key in p then Some(p[key]) else None
  }

  /** A label annotation of the image-labelling response. */
  datatype Label = Label(description: string, score: real)

  /** `[label.description for label in annotations]`, empty for no annotations. */
  function Descriptions(annotations: seq<Label>): (r: seq<string>)
    ensures |r| == |annotations|
    ensures forall k :: 0 <= k < |r| ==> r[k] == annotations[k].description
  {
    if |annotations| == 0 then [] else [annotations[0].description] + Descriptions(annotations[1..])
  }

  const PromptHead := "Generate a short, creative Instagram caption for a product named '"
  const PromptTail := "'."

  /** The caption prompt: the product name, or `N/A` when the field is missing. */
  function CaptionPrompt(p: Product): (r: string)
    ensures "productName" in p ==> r == PromptHead + PyStr(p["productName"]) + PromptTail
    ensures "productName" !in p ==> r == PromptHead + "N/A" + PromptTail
  {
    var name := match Get(p, "productName")
      case Some(v) => PyStr(v)
      case None => "N/A";
    PromptHead + name + PromptTail
  }

  /** The prompt is the fixed head and tail around the name's text, which can be read
      back out from between them. */
  lemma CaptionPromptEmbedsName(p: Product)
    ensures var r := CaptionPrompt(p);
      var name := if "productName" in p then PyStr(p["productName"]) else "N/A";
      && StartsWith(r, PromptHead) && EndsWith(r, PromptTail)
      && |r| == |PromptHead| + |name| + |PromptTail|
      && r[|PromptHead|..|r| - |PromptTail|] == name
  {
    var r := CaptionPrompt(p);
    var name := if "productName" in p then PyStr(p["productName"]) else "N/A";
    assert r == PromptHead + name + PromptTail;
    assert r[..|PromptHead|] == PromptHead;
    assert r[|r| - |PromptTail|..] == PromptTail;
    assert r[|PromptHead|..|r| - |PromptTail|] == name;
  }

  /** The update the handler writes back, as the text model's reply and the labels.
      Exactly two fields are written: `postDescription`, the reply with Python's
      `strip()` applied, and `aiLabels`. */
  datatype Update = Update(reply: string, aiLabels: seq<string>)
  {
    function PostDescription(): string
    {
      Strip(reply)
    }
  }

  /** A request to a service outside the handler. */
  datatype Call =
    | ReadDoc(path: string)
    | DetectLabels(imageUri: DocValue, maxResults: nat)
    | GenerateContent(prompt: string)
    | UpdateDoc(path: string, update: Update)

  /** How the document read settles. */
  datatype ReadOutcome = ReadFailed | NotFound | Found(product: Product)

  /** How each step outside the handler settles; `pathAccepted` is whether the
      store client accepts the path as a document path (it raises otherwise). */
  datatype Steps = Steps(
    pathAccepted: bool,
    read: ReadOutcome,
    vision: Outcome<seq<Label>>,
    gemini: Outcome<string>,
    update: Outcome<()>)

  /** The reply body: text, the JSON `{"status": "ok"}`, or the framework's own page
      for an uncaught exception. */
  datatype Body = Text(text: string) | StatusOk | ServerErrorPage

  datatype Response = Response(status: int, body: Body)

  /** The reply and the calls made, in order. */
  datatype Run = Run(response: Response, calls: seq<Call>)

  const BadPayload := Response(400, Text("Bad Request: Invalid payload"))
  const Uncaught := Response(500, ServerErrorPage)
  const DocumentNotFound := Response(200, Text("Document not found"))
  const ReadError := Response(500, Text("Firestore read error"))
  const MissingImageUrl := Response(200, Text("Missing imageUrl"))
  const VisionError := Response(500, Text("Vision API error"))
  const GeminiError := Response(500, Text("Gemini API error"))
  const UpdateError := Response(500, Text("Firestore update error"))
  const Ok := Response(200, StatusOk)

  const MaxLabels := 10

  /** `handle_firestore_event` for a decoded body and the outcomes of its steps. */
  function HandleEvent(event: Option<Json>, steps: Steps): (run: Run)
    ensures run.response.status == 200 || run.response.status == 400 || run.response.status == 500
    ensures run.response.status == 400 <==> CheckPayload(event).Rejected?
    ensures |run.calls| > 0 ==>
      && CheckPayload(event).ResourceName? && steps.pathAccepted
      && run.calls[0] == ReadDoc(DocPath(CheckPayload(event).name))
    ensures CheckPayload(event).Raised? ==> run == Run(Uncaught, [])
    ensures CheckPayload(event).ResourceName? && !steps.pathAccepted ==> run == Run(Uncaught, [])
    ensures CheckPayload(event).ResourceName? && steps.pathAccepted ==>
      run == Pipeline(DocPath(CheckPayload(event).name), steps)
  {
    match CheckPayload(event)
    case Rejected => Run(BadPayload, [])
    case Raised => Run(Uncaught, [])
    case ResourceName(name) =>
      if !steps.pathAccepted then Run(Uncaught, [])
      else Pipeline(DocPath(name), steps)
  }

  /** Steps 2 to 5, for a document path the store accepted. */
  function Pipeline(path: string, steps: Steps): (run: Run)
    ensures 1 <= |run.calls| <= 4 && run.calls[0] == ReadDoc(path)
    ensures run.response.status == 200 || run.response.status == 500
    ensures run.response.status == 200 <==>
      run.response == DocumentNotFound || run.response == MissingImageUrl || run.response == Ok
    ensures forall k :: 0 <= k < |run.calls| && run.calls[k].UpdateDoc? ==> run.calls[k].path == path
  {
    var read := [ReadDoc(path)];
    match steps.read
    case ReadFailed => Run(ReadError, read)
    case NotFound => Run(DocumentNotFound, read)
    case Found(product) =>
      var imageUrl := Get(product, "imageUrl");
      if !DocTruthy(imageUrl) then Run(MissingImageUrl, read)
      else
        var labelled := read + [DetectLabels(imageUrl.value, MaxLabels)];
        match steps.vision
        case Failed(_) => Run(VisionError, labelled)
        case Succeeded(annotations) =>
          var labels := Descriptions(annotations);
          var asked := labelled + [GenerateContent(CaptionPrompt(product))];
          match steps.gemini
          case Failed(_) => Run(GeminiError, asked)
          case Succeeded(text) =>
            var written := asked + [UpdateDoc(path, Update(text, labels))];
            match steps.update
            case Failed(_) => Run(UpdateError, written)
            case Succeeded(_) => Run(Ok, written)
  }

  /** The kind of each call, in pipeline order. */
  function Stage(c: Call): nat
  {
    match c
    case ReadDoc(_) => 0
    case DetectLabels(_, _) => 1
    case GenerateContent(_) => 2
    case UpdateDoc(_, _) => 3
  }

  /** The calls made are a prefix of read, label, generate, update: each at most
      once, none skipped, never out of order. */
  lemma CallsFollowPipeline(event: Option<Json>, steps: Steps)
    ensures var calls := HandleEvent(event, steps).calls;
      && |calls| <= 4
      && forall k :: 0 <= k < |calls| ==> Stage(calls[k]) == k
  {
    match CheckPayload(event)
    case ResourceName(name) =>
      if steps.pathAccepted {
        PipelineStages(DocPath(name), steps);
      }
    case _ =>
  }

  lemma PipelineStages(path: string, steps: Steps)
    ensures var calls := Pipeline(path, steps).calls;
      forall k :: 0 <= k < |calls| ==> Stage(calls[k]) == k
  {
    var calls := Pipeline(path, steps).calls;
    if steps.read.Found? && DocTruthy(Get(steps.read.product, "imageUrl")) {
      var product := steps.read.product;
      var labelled := [ReadDoc(path), DetectLabels(product["imageUrl"], MaxLabels)];
      if steps.vision.Failed? {
        assert calls == labelled;
      } else if steps.gemini.Failed? {
        assert calls == labelled + [GenerateContent(CaptionPrompt(product))];
      } else {
        var update := Update(steps.gemini.value, Descriptions(steps.vision.value));
        assert calls == labelled + [GenerateContent(CaptionPrompt(product)), UpdateDoc(path, update)];
      }
    } else {
      assert calls == [ReadDoc(path)];
    }
  }

  /** A payload that fails the check gets 400 and no service is called; any call at
      all means the payload carried a string resource name. */
  lemma InvalidPayloadCallsNothing(event: Option<Json>, steps: Steps)
    ensures HandleEvent(event, steps).response == BadPayload <==> CheckPayload(event).Rejected?
    ensures !CheckPayload(event).ResourceName? ==> HandleEvent(event, steps).calls == []
  {
  }

  /** Each failing step has its own reply, and the update is only attempted once
      every earlier step has succeeded. */
  lemma StepFailuresAreDistinct(event: Option<Json>, steps: Steps)
    requires CheckPayload(event).ResourceName? && steps.pathAccepted
    ensures var run := HandleEvent(event, steps);
      && (steps.read.ReadFailed? ==> run.response == ReadError && |run.calls| == 1)
      && (steps.read.NotFound? ==> run.response == DocumentNotFound && |run.calls| == 1)
      && (steps.read.Found? && !DocTruthy(Get(steps.read.product, "imageUrl")) ==>
            run.response == MissingImageUrl && |run.calls| == 1)
      && (|run.calls| >= 2 && steps.vision.Failed? ==> run.response == VisionError && |run.calls| == 2)
      && (|run.calls| >= 3 && steps.gemini.Failed? ==> run.response == GeminiError && |run.calls| == 3)
      && (|run.calls| == 4 ==> steps.read.Found? && steps.vision.Succeeded? && steps.gemini.Succeeded?)
      && (|run.calls| == 4 && steps.update.Failed? ==> run.response == UpdateError)
    ensures var run := HandleEvent(event, steps);
      steps.read.Found? && DocTruthy(Get(steps.read.product, "imageUrl")) ==>
        && (steps.vision.Failed? ==> run.response == VisionError)
        && (steps.vision.Succeeded? && steps.gemini.Failed? ==> run.response == GeminiError)
        && (steps.vision.Succeeded? && steps.gemini.Succeeded? && steps.update.Failed? ==>
              run.response == UpdateError)
  {
    if steps.read.Found? && DocTruthy(Get(steps.read.product, "imageUrl")) {
      var path := DocPath(CheckPayload(event).name);
      FoundImageIsLabelled(path, steps);
      if steps.vision.Succeeded? {
        LabelsLeadToPrompt(path, steps);
        if steps.gemini.Succeeded? {
          CaptionLeadsToUpdate(path, steps);
        }
      }
    }
  }

  /** A document that is found and has an image URL is labelled, and a labelling
      failure gets its own 500 reply after that call. */
  lemma FoundImageIsLabelled(path: string, steps: Steps)
    requires steps.read.Found? && DocTruthy(Get(steps.read.product, "imageUrl"))
    ensures var run := Pipeline(path, steps);
      && |run.calls| >= 2
      && run.calls[1] == DetectLabels(steps.read.product["imageUrl"], MaxLabels)
      && (steps.vision.Failed? ==> run.response == VisionError && |run.calls| == 2)
  {
    var run := Pipeline(path, steps);
    var labelled := [ReadDoc(path), DetectLabels(steps.read.product["imageUrl"], MaxLabels)];
    assert run.calls[..2] == labelled;
  }

  /** Once labelling succeeds the text model is asked, and its failure gets its own
      500 reply after that call. */
  lemma LabelsLeadToPrompt(path: string, steps: Steps)
    requires steps.read.Found? && DocTruthy(Get(steps.read.product, "imageUrl"))
    requires steps.vision.Succeeded?
    ensures var run := Pipeline(path, steps);
      && |run.calls| >= 3
      && run.calls[2] == GenerateContent(CaptionPrompt(steps.read.product))
      && (steps.gemini.Failed? ==> run.response == GeminiError && |run.calls| == 3)
  {
    var run := Pipeline(path, steps);
    var product := steps.read.product;
    var asked := [ReadDoc(path), DetectLabels(product["imageUrl"], MaxLabels),
                  GenerateContent(CaptionPrompt(product))];
    assert run.calls[..3] == asked;
  }

  /** Once the text model answers, the update is written with the stripped caption
      and the labels; its failure gets its own 500 reply and its success the OK
      reply. */
  lemma CaptionLeadsToUpdate(path: string, steps: Steps)
    requires steps.read.Found? && DocTruthy(Get(steps.read.product, "imageUrl"))
    requires steps.vision.Succeeded? && steps.gemini.Succeeded?
    ensures var run := Pipeline(path, steps);
      && |run.calls| == 4
      && run.calls[3] == UpdateDoc(path,
           Update(steps.gemini.value, Descriptions(steps.vision.value)))
      && (steps.update.Failed? ==> run.response == UpdateError)
      && (steps.update.Succeeded? ==> run.response == Ok)
  {
    var run := Pipeline(path, steps);
    var product := steps.read.product;
    var update := Update(steps.gemini.value, Descriptions(steps.vision.value));
    var written := [ReadDoc(path), DetectLabels(product["imageUrl"], MaxLabels),
                    GenerateContent(CaptionPrompt(product)), UpdateDoc(path, update)];
    assert run.calls == written;
  }

  /** For the pipeline itself: the 200 `{"status": "ok"}` reply comes exactly from a
      run that made all four calls and whose update succeeded, and the calls carry
      the image URL, the prompt, and the stripped caption with the labels in order. */
  lemma PipelineSuccess(path: string, steps: Steps)
    ensures var run := Pipeline(path, steps);
      run.response == Ok <==> |run.calls| == 4 && steps.update.Succeeded?
    ensures var run := Pipeline(path, steps);
      |run.calls| == 4 ==>
        && steps.read.Found? && steps.vision.Succeeded? && steps.gemini.Succeeded?
        && run.calls[1] == DetectLabels(steps.read.product["imageUrl"], MaxLabels)
        && run.calls[2] == GenerateContent(CaptionPrompt(steps.read.product))
        && run.calls[3] == UpdateDoc(path,
             Update(steps.gemini.value, Descriptions(steps.vision.value)))
    ensures steps.read.Found? && DocTruthy(Get(steps.read.product, "imageUrl"))
      && steps.vision.Succeeded? && steps.gemini.Succeeded? && steps.update.Succeeded?
      ==> Pipeline(path, steps).response == Ok && |Pipeline(path, steps).calls| == 4
  {
    match steps.read
    case Found(product) =>
      if DocTruthy(Get(product, "imageUrl")) && steps.vision.Succeeded? && steps.gemini.Succeeded? {
        assert |Pipeline(path, steps).calls| == 4;
      } else {
        assert |Pipeline(path, steps).calls| < 4;
      }
    case _ =>
  }

  /** The 200 `{"status": "ok"}` reply comes exactly from a full run whose update
      succeeded, on the document the event names. */
  lemma SuccessMeansFullUpdate(event: Option<Json>, steps: Steps)
    ensures var run := HandleEvent(event, steps);
      run.response == Ok <==> |run.calls| == 4 && steps.update.Succeeded?
    ensures var run := HandleEvent(event, steps);
      |run.calls| == 4 ==>
        && CheckPayload(event).ResourceName?
        && run == Pipeline(DocPath(CheckPayload(event).name), steps)
    ensures CheckPayload(event).ResourceName? && steps.pathAccepted
      && steps.read.Found? && DocTruthy(Get(steps.read.product, "imageUrl"))
      && steps.vision.Succeeded? && steps.gemini.Succeeded? && steps.update.Succeeded?
      ==> HandleEvent(event, steps).response == Ok && |HandleEvent(event, steps).calls| == 4
  {
    match CheckPayload(event)
    case ResourceName(name) =>
      if steps.pathAccepted {
        PipelineSuccess(DocPath(name), steps);
      }
    case _ =>
  }
}

=== FILE: common.dfy ===
/** Values shared by the browser-side and server-side parts of the model: optional
    values, the settled outcome of a call into code outside the model, the value a
    failed call throws, and a browser file. */
module Common {

  /** An absent value (JavaScript's `undefined`, Python's `None`) versus a present one. */
  datatype Option<+T> = None | Some(value: T)

  /** A thrown JavaScript value as a `catch` block sees it: its `message` property
      (absent when the thrown value is not an `Error`) and its string conversion. */
  datatype Thrown = Thrown(message: Option<string>, text: string)

  /** How an awaited call into code outside the model settles. */
  datatype Outcome<+T> = Succeeded(value: T) | Failed(error: Thrown)

  /** A browser `File`: its name and its media type (`File.type`, e.g. "image/png"). */
  datatype File = File(name: string, mediaType: string)

  /** JavaScript truthiness of a value that is either absent or a string. */
  predicate Truthy(s: Option<string>)
  {
    s.Some? && |s.value| > 0
  }
}

=== FILE: dashboard.dfy ===
/** The listing dashboard: six text fields, an optional photo with its preview URL,
    a loading flag and a status message; the submit handler writes one record to the
    `products` collection and the photo handler only sets the preview. */
module Dashboard {
  import opened Common
  import opened Strings

  /** The six form fields, each the raw text of its input (the price included). */
  datatype Form = Form(
    artisanName: string,
    productName: string,
    description: string,
    price: string,
    contact: string,
    area: string)

  const EmptyForm := Form("", "", "", "", "", "")

  datatype DashState = DashState(
    form: Form,
    image: Option<File>,
    previewUrl: Option<string>,
    loading: bool,
    message: string)

  const Initial := DashState(EmptyForm, None, None, false, "")

  const SuccessMessage := "\U{2705} Product saved successfully!"
  const ErrorPrefix := "\U{274C} Error: "
  const Collection := "products"
  const IdPrefix := "art_"

  /** A stored field: a string, or the store's own timestamp placeholder. */
  datatype FieldValue = Text(text: string) | ServerTimestamp

  type Record = map<string, FieldValue>

  /** A write to the document store. */
  datatype Write = Write(collection: string, record: Record)

  function Min(a: int, b: int): int
  {
    if a <= b then a else b
  }

  /** `"art_" + uuid.slice(0, 8)`: the prefix, then as much of the first eight
      characters of the generated id as there are. */
  function ArtisanId(uuid: string): (id: string)
    ensures StartsWith(id, IdPrefix)
    ensures |id| == |IdPrefix| + Min(8, |uuid|)
    ensures StartsWith(uuid, id[|IdPrefix|..])
  {
    IdPrefix + uuid[..Min(8, |uuid|)]
  }

  /** A standard 36-character UUID always yields a 12-character artisan id. */
  lemma ArtisanIdOfUuid(uuid: string)
    requires |uuid| == 36
    ensures |ArtisanId(uuid)| == 12
  {
  }

  const RecordKeys: set<string> :=
    {"artisanId", "artisanName", "productName", "description", "price", "contact", "area", "createdAt"}

  /** The record the submit handler stores: the artisan id, the six fields verbatim,
      and the server timestamp. There is no image URL. */
  function BuildRecord(artisanId: string, f: Form): (r: Record)
    ensures r.Keys == RecordKeys
    ensures "imageUrl" !in r
    ensures r["artisanId"] == Text(artisanId)
    ensures r["price"] == Text(f.price)
    ensures r["createdAt"] == ServerTimestamp
    ensures forall k :: k in r && k != "createdAt" ==> r[k].Text?
  {
    map[
      "artisanId" := Text(artisanId),
      "artisanName" := Text(f.artisanName),
      "productName" := Text(f.productName),
      "description" := Text(f.description),
      "price" := Text(f.price),
      "contact" := Text(f.contact),
      "area" := Text(f.area),
      "createdAt" := ServerTimestamp]
  }

  function TextField(r: Record, key: string): Option<string>
  {
    if key in r && r[key].Text? then Some(r[key].text) else None
  }

  /** Reads the six form fields back out of a stored record. */
  function RecordForm(r: Record): Option<Form>
  {
    var names := [TextField(r, "artisanName"), TextField(r, "productName"),
      TextField(r, "description"), TextField(r, "price"), TextField(r, "contact"),
      TextField(r, "area")];
    if forall k :: 0 <= k < |names| ==> names[k].Some? then
      Some(Form(names[0].value, names[1].value, names[2].value, names[3].value,
        names[4].value, names[5].value))
    else None
  }

  /** Nothing of the form is lost or altered on the way into the record. */
  lemma RecordRoundTrip(artisanId: string, f: Form)
    ensures RecordForm(BuildRecord(artisanId, f)) == Some(f)
    ensures TextField(BuildRecord(artisanId, f), "artisanId") == Some(artisanId)
  {
  }

  /** `err?.message || err`, as the message shows it. */
  function ErrorDetail(e: Thrown): (r: string)
    ensures Truthy(e.message) ==> r == e.message.value
    ensures !Truthy(e.message) ==> r == e.text
  {
    if Truthy(e.message) then e.message.value else e.text
  }

  /** One run of the submit handler: the state while the write is awaited, the writes
      issued, and the state once it has finished. */
  datatype SubmitRun = SubmitRun(started: DashState, writes: seq<Write>, final: DashState)

  /** `handleSubmit` given the generated id and how the write settles. */
  function HandleSubmit(s: DashState, uuid: string, write: Outcome<()>): (run: SubmitRun)
    ensures run.started == s.(loading := true, message := "")
    ensures |run.writes| == 1
    ensures run.writes[0].collection == Collection
    ensures RecordForm(run.writes[0].record) == Some(s.form)
    ensures run.writes[0].record.Keys == RecordKeys
    ensures TextField(run.writes[0].record, "artisanId") == Some(ArtisanId(uuid))
    ensures run.writes[0].record["createdAt"] == ServerTimestamp
    ensures !run.final.loading
    ensures write.Succeeded? ==>
      run.final == DashState(EmptyForm, None, None, false, SuccessMessage)
    ensures write.Failed? ==>
      && run.final.form == s.form && run.final.image == s.image
      && run.final.previewUrl == s.previewUrl
      && run.final.message == ErrorPrefix + ErrorDetail(write.error)
  {
    var started := s.(loading := true, message := "");
    var record := BuildRecord(ArtisanId(uuid), s.form);
    RecordRoundTrip(ArtisanId(uuid), s.form);
    var writes := [Write(Collection, record)];
    match write
    case Succeeded(_) =>
      SubmitRun(started, writes, DashState(EmptyForm, None, None, false, SuccessMessage))
    case Failed(e) =>
      SubmitRun(started, writes, started.(loading := false, message := ErrorPrefix + ErrorDetail(e)))
  }

  /** An error message never reads as the success message: the two start differently. */
  lemma OutcomesDistinguishable(s: DashState, uuid: string, e: Thrown)
    ensures HandleSubmit(s, uuid, Failed(e)).final.message != SuccessMessage
  {
    var m := HandleSubmit(s, uuid, Failed(e)).final.message;
    assert m[0] == '\U{274C}';
  }

  /** `handleImageChange`: with no file nothing changes; with one, the photo is set and
      then the preview URL, which is left as it was if the URL cannot be made. */
  function HandleImageChange(s: DashState, files: Option<seq<File>>, preview: Outcome<string>): (r: DashState)
    ensures files.None? || |files.value| == 0 ==> r == s
    ensures files.Some? && |files.value| > 0 ==>
      && r.image == Some(files.value[0])
      && r.previewUrl == (if preview.Succeeded? then Some(preview.value) else s.previewUrl)
      && r.form == s.form && r.loading == s.loading && r.message == s.message
  {
    match files
    case None => s
    case Some(fs) =>
      if |fs| == 0 then s
      else
        var withImage := s.(image := Some(fs[0]));
        match preview
        case Succeeded(url) => withImage.(previewUrl := Some(url))
        case Failed(_) => withImage
  }

  /** A successful submission returns the form to its initial look. */
  lemma SuccessRestoresInitial(s: DashState, uuid: string)
    ensures HandleSubmit(s, uuid, Succeeded(())).final == Initial.(message := SuccessMessage)
  {
  }
}

=== FILE: generator.dfy ===
/** The generator page: the image, its preview URL, the generated post and the
    analysing flag; the upload-and-analyse handler, reset, the copy and Instagram
    actions, and which panels the page shows. */
module Generator {
  import opened Common
  import opened PostText

  datatype PageState = PageState(
    uploadedImage: Option<File>,
    imageUrl: Option<string>,
    generatedPost: Option<GeneratedPost>,
    isAnalyzing: bool,
    copied: bool)

  const Initial := PageState(None, None, None, false, false)

  /** A request the upload handler makes of code outside the page. The analysis
      prompt and response schema are fixed constants and are not carried. */
  datatype Request =
    | CreatePreview(file: File)
    | Upload(file: File)
    | Analyze(fileUrls: seq<string>)

  /** One run of the upload handler: the state shown while the upload is awaited
      (equal to `final` when the preview URL cannot be made and nothing is awaited),
      the requests made in order, and the state once the handler has finished. */
  datatype UploadRun = UploadRun(started: PageState, requests: seq<Request>, final: PageState)

  /** `handleImageUpload(file)` given how the preview URL, the upload (its `file_url`)
      and the analysis settle. */
  function HandleImageUpload(
    s: PageState, file: File,
    preview: Outcome<string>, upload: Outcome<string>, analysis: Outcome<GeneratedPost>): (run: UploadRun)
    ensures run.started.uploadedImage == Some(file) && run.started.generatedPost.None?
    ensures preview.Succeeded? ==> run.started.isAnalyzing && run.started.imageUrl == Some(preview.value)
    ensures run.final.uploadedImage == Some(file) && !run.final.isAnalyzing
    ensures run.final.imageUrl == run.started.imageUrl && run.final.copied == s.copied
    ensures run.final.generatedPost.Some? <==> preview.Succeeded? && upload.Succeeded? && analysis.Succeeded?
    ensures run.final.generatedPost.Some? ==> run.final.generatedPost.value == analysis.value
    ensures forall k :: 0 <= k < |run.requests| && run.requests[k].Analyze? ==>
      && preview.Succeeded? && upload.Succeeded?
      && run.requests[k].fileUrls == [upload.value]
      && 0 < k && run.requests[k - 1] == Upload(file)
    ensures 0 < |run.requests| && run.requests[0] == CreatePreview(file)
    ensures Upload(file) in run.requests <==> preview.Succeeded?
    ensures |run.requests| == if preview.Failed? then 1 else if upload.Failed? then 2 else 3
    ensures preview.Failed? ==> run.final.imageUrl == s.imageUrl
    ensures (exists k :: 0 <= k < |run.requests| && run.requests[k].Analyze?)
      <==> preview.Succeeded? && upload.Succeeded?
  {
    var chosen := s.(uploadedImage := Some(file), generatedPost := None);
    match preview
    case Failed(_) =>
      var done := chosen.(isAnalyzing := false);
      UploadRun(done, [CreatePreview(file)], done)
    case Succeeded(url) =>
      var waiting := chosen.(imageUrl := Some(url), isAnalyzing := true);
      match upload
      case Failed(_) =>
        UploadRun(waiting, [CreatePreview(file), Upload(file)], waiting.(isAnalyzing := false))
      case Succeeded(fileUrl) =>
        var requests := [CreatePreview(file), Upload(file), Analyze([fileUrl])];
        assert requests[2].Analyze?;
        match analysis
        case Failed(_) => UploadRun(waiting, requests, waiting.(isAnalyzing := false))
        case Succeeded(post) =>
          UploadRun(waiting, requests, waiting.(generatedPost := Some(post), isAnalyzing := false))
  }

  /** A failed upload never reaches the analysis service. */
  lemma UploadFailureSkipsAnalysis(
    s: PageState, file: File, preview: Outcome<string>, upload: Outcome<string>,
    analysis: Outcome<GeneratedPost>)
    requires upload.Failed?
    ensures var run := HandleImageUpload(s, file, preview, upload, analysis);
      && (forall k :: 0 <= k < |run.requests| ==> !run.requests[k].Analyze?)
      && run.final.generatedPost.None?
      && run.final.uploadedImage == Some(file)
  {
  }

  /** `resetUpload`: no image, no preview URL, no post, not analysing. */
  function ResetUpload(s: PageState): (r: PageState)
    ensures r.uploadedImage.None? && r.imageUrl.None? && r.generatedPost.None? && !r.isAnalyzing
    ensures r.copied == s.copied
  {
    s.(uploadedImage := None, imageUrl := None, generatedPost := None, isAnalyzing := false)
  }

  /** Resetting twice is resetting once. */
  lemma ResetIdempotent(s: PageState)
    ensures ResetUpload(ResetUpload(s)) == ResetUpload(s)
  {
  }

  /** Reset undoes an upload run: whatever the run did, resetting afterwards gives
      the same page as resetting before it. */
  lemma ResetForgetsUpload(
    s: PageState, file: File, preview: Outcome<string>, upload: Outcome<string>,
    analysis: Outcome<GeneratedPost>)
    ensures ResetUpload(HandleImageUpload(s, file, preview, upload, analysis).final) == ResetUpload(s)
  {
  }

  /** The text handed to the clipboard write, if the handler got that far (whether or
      not the write then succeeded), and the page afterwards. */
  datatype CopyResult = CopyResult(written: Option<string>, state: PageState)

  /** `handleCopyToClipboard`: nothing happens without a post; without a hashtag list
      the text cannot be built; `copied` is set only once the write succeeds. The
      two-second timer that clears `copied` again is not modelled. */
  function HandleCopyToClipboard(s: PageState, clipboard: Outcome<()>): (r: CopyResult)
    ensures s.generatedPost.None? ==> r == CopyResult(None, s)
    ensures r.written.Some? <==> s.generatedPost.Some? && s.generatedPost.value.hashtags.Some?
    ensures r.written.Some? ==> r.written == ComposePostText(s.generatedPost.value)
    ensures r.state.copied <==> s.copied || (r.written.Some? && clipboard.Succeeded?)
    ensures r.state == s.(copied := r.state.copied)
  {
    match s.generatedPost
    case None => CopyResult(None, s)
    case Some(post) =>
      match ComposePostText(post)
      case None => CopyResult(None, s)
      case Some(text) =>
        CopyResult(Some(text), if clipboard.Succeeded? then s.(copied := true) else s)
  }

  /** What `handlePostToInstagram` does, in order. */
  datatype ShareEffect =
    | WriteClipboard(text: string)
    | OpenWindow(url: string)
    | OpenWindowAfter(delayMs: nat, url: string)

  const InstagramAppUrl := "instagram://camera"
  const InstagramWebUrl := "https://www.instagram.com/"

  /** `handlePostToInstagram`: write the text, open the app link, and schedule the
      web link a second later. The write is not awaited, so its outcome does not
      matter; but where the page has no `navigator.clipboard` (a non-secure context)
      the call throws at once and neither link is opened. The page state is not
      touched. */
  function HandlePostToInstagram(s: PageState, clipboardAvailable: bool): (effects: seq<ShareEffect>)
    ensures |effects| == 0 || |effects| == 3
    ensures |effects| == 3 <==>
      clipboardAvailable && s.generatedPost.Some? && s.generatedPost.value.hashtags.Some?
    ensures |effects| == 3 ==>
      && effects[0] == WriteClipboard(ComposePostText(s.generatedPost.value).value)
      && effects[1] == OpenWindow(InstagramAppUrl)
      && effects[2] == OpenWindowAfter(1000, InstagramWebUrl)
  {
    match s.generatedPost
    case None => []
    case Some(post) =>
      match ComposePostText(post)
      case None => []
      case Some(text) =>
        if !clipboardAvailable then []
        else [WriteClipboard(text), OpenWindow(InstagramAppUrl), OpenWindowAfter(1000, InstagramWebUrl)]
  }

  /** The share action and the copy action put the same text on the clipboard, and
      do so for the same pages. Without a clipboard the share action does nothing,
      and the copy action's write fails (the call rejects inside the async handler). */
  lemma ShareAndCopyAgree(s: PageState, clipboardAvailable: bool, clipboard: Outcome<()>)
    ensures var effects := HandlePostToInstagram(s, clipboardAvailable);
      var copy := HandleCopyToClipboard(s, clipboard);
      && (clipboardAvailable ==> (|effects| > 0 <==> copy.written.Some?))
      && (!clipboardAvailable ==> effects == [])
      && (|effects| > 0 ==> effects[0] == WriteClipboard(copy.written.value))
  {
  }

  /** The panels the page renders. */
  datatype Panels = Panels(
    uploadZone: bool, loading: bool, imageCard: bool, preview: bool, actions: bool)

  /** The left column shows exactly one of the drop zone, the loading animation and
      the image card; the preview and the action buttons appear together, exactly when
      there is a post. */
  function VisiblePanels(s: PageState): (p: Panels)
    ensures (p.uploadZone && !p.loading && !p.imageCard)
      || (!p.uploadZone && p.loading && !p.imageCard)
      || (!p.uploadZone && !p.loading && p.imageCard)
    ensures p.loading <==> s.isAnalyzing
    ensures p.uploadZone <==> s.uploadedImage.None? && !s.isAnalyzing
    ensures p.preview == p.actions == s.generatedPost.Some?
  {
    Panels(
      s.uploadedImage.None? && !s.isAnalyzing,
      s.isAnalyzing,
      s.uploadedImage.Some? && !s.isAnalyzing,
      s.generatedPost.Some?,
      s.generatedPost.Some?)
  }

  /** What holds of every page the handlers can produce: analysis only runs for an
      uploaded image and before any post exists; a post comes with its image and URL. */
  predicate Consistent(s: PageState)
  {
    && (s.isAnalyzing ==> s.uploadedImage.Some? && s.generatedPost.None?)
    && (s.generatedPost.Some? ==> s.uploadedImage.Some? && s.imageUrl.Some? && !s.isAnalyzing)
  }

  lemma InitialConsistent()
    ensures Consistent(Initial)
  {
  }

  /** Every handler keeps the page consistent, including the state shown while the
      upload is awaited. */
  lemma HandlersPreserveConsistency(
    s: PageState, file: File, preview: Outcome<string>, upload: Outcome<string>,
    analysis: Outcome<GeneratedPost>, clipboard: Outcome<()>)
    requires Consistent(s)
    ensures var run := HandleImageUpload(s, file, preview, upload, analysis);
      Consistent(run.started) && Consistent(run.final)
    ensures Consistent(ResetUpload(s))
    ensures Consistent(HandleCopyToClipboard(s, clipboard).state)
  {
  }

  /** On a consistent page the post preview is only shown beside the image card, and
      the drop zone never beside a post. */
  lemma PreviewBesideImage(s: PageState)
    requires Consistent(s)
    ensures VisiblePanels(s).preview ==> VisiblePanels(s).imageCard && !VisiblePanels(s).uploadZone
  {
  }
}

=== FILE: post_preview.dfy ===
/** The preview card: the caption as written, one badge per hashtag, and the mood
    and tip lines shown under fixed conditions. */
module PostPreview {
  import opened Common
  import opened Strings
  import opened PostText

  /** What the card shows, apart from the image and the decorative parts. */
  datatype Preview = Preview(
    caption: string,
    badges: seq<string>,
    moodLine: Option<string>,
    tipLine: Option<string>)

  /** How React renders an optional string child: absent renders nothing. */
  function ChildText(s: Option<string>): string
  {
    match s
    case Some(t) => t
    case None => ""
  }

  /** The card for a post: badges through `hashtags?.map`, the mood block only for a
      truthy mood, and inside it the tip only for a truthy suggestion. */
  function Render(post: GeneratedPost): (p: Preview)
    ensures post.caption.Some? ==> p.caption == post.caption.value
    ensures post.caption.None? ==> p.caption == ""
    ensures post.hashtags.None? ==> p.badges == []
    ensures post.hashtags.Some? ==>
      && |p.badges| == |post.hashtags.value|
      && forall k :: 0 <= k < |p.badges| ==> p.badges[k] == NormalizeTag(post.hashtags.value[k])
    ensures p.moodLine.Some? <==> Truthy(post.mood)
    ensures p.moodLine.Some? ==> p.moodLine == post.mood
    ensures p.tipLine.Some? <==> Truthy(post.mood) && Truthy(post.suggestion)
    ensures p.tipLine.Some? ==> p.tipLine == post.suggestion
  {
    var badges := match post.hashtags
      case None => []
      case Some(tags) => NormalizeTags(tags);
    var showMood := Truthy(post.mood);
    Preview(
      ChildText(post.caption),
      badges,
      if showMood then post.mood else None,
      if showMood && Truthy(post.suggestion) then post.suggestion else None)
  }

  /** The copied text and the preview show the same caption exactly when the post
      has one; an absent caption is `undefined` in the text and nothing on the card. */
  lemma CaptionAgreement(post: GeneratedPost)
    ensures TemplateText(post.caption) == Render(post).caption <==> post.caption.Some?
  {
    if post.caption.None? {
      assert |TemplateText(post.caption)| == 9;
    }
  }

  /** A tip is never shown without a mood line. */
  lemma TipNeedsMood(post: GeneratedPost)
    ensures Render(post).tipLine.Some? ==> Render(post).moodLine.Some?
  {
  }

  /** Whenever the page can build a post text, that text is the caption, a blank
      line, and the preview's badge texts joined by single spaces. */
  lemma BadgesMatchPostText(post: GeneratedPost)
    ensures ComposePostText(post).Some? ==>
      ComposePostText(post).value
        == TemplateText(post.caption) + "\n\n" + Join(Render(post).badges, " ")
  {
  }

  /** With at least one tag and no spaces inside tags, the k-th space-separated
      token after the caption's blank line is the k-th badge. */
  lemma BadgeIsToken(post: GeneratedPost, k: nat)
    requires post.hashtags.Some? && k < |post.hashtags.value|
    requires forall j :: 0 <= j < |post.hashtags.value| ==> ' ' !in post.hashtags.value[j]
    ensures var head := TemplateText(post.caption) + "\n\n";
      var tokens := Split(ComposePostText(post).value[|head|..], ' ');
      k < |tokens| && tokens[k] == Render(post).badges[k]
  {
    PostTextTokens(post);
  }
}

=== FILE: post_text.dfy ===
/** The generated post and the text the generator page puts on the clipboard:
    the caption, a blank line, then the hashtags, each prefixed with `#` unless it
    already starts with one, separated by single spaces. */
module PostText {
  import opened Common
  import opened Strings

  /** The analysis result as the page stores it. Every field is optional: the
      response schema names them but requires none. */
  datatype GeneratedPost = GeneratedPost(
    caption: Option<string>,
    hashtags: Option<seq<string>>,
    mood: Option<string>,
    suggestion: Option<string>)

  predicate HasHash(tag: string)
  {
    StartsWith(tag, "#")
  }

  /** A tag as the page and the preview show it: unchanged when it already starts
      with `#`, otherwise with `#` in front. */
  function NormalizeTag(tag: string): (r: string)
    ensures HasHash(r)
    ensures r == tag <==> HasHash(tag)
    ensures r == tag || r == "#" + tag
  {
    if HasHash(tag) then tag else "#" + tag
  }

  /** Normalising an already normalised tag changes nothing. */
  lemma NormalizeTagIdempotent(tag: string)
    ensures NormalizeTag(NormalizeTag(tag)) == NormalizeTag(tag)
  {
  }

  /** Normalisation never creates a doubled `##`: the result starts with `##`
      exactly when the tag did. */
  lemma NormalizeTagNoDoubleHash(tag: string)
    ensures StartsWith(NormalizeTag(tag), "##") <==> StartsWith(tag, "##")
  {
    if !HasHash(tag) && |tag| > 0 {
      assert ("#" + tag)[..2] == "#" + tag[..1];
    }
  }

  /** `hashtags.map(tag => ...)`: one normalised tag per input tag, in order,
      duplicates included. */
  function NormalizeTags(tags: seq<string>): (r: seq<string>)
    ensures |r| == |tags|
    ensures forall k :: 0 <= k < |tags| ==> r[k] == NormalizeTag(tags[k])
  {
    if |tags| == 0 then [] else [NormalizeTag(tags[0])] + NormalizeTags(tags[1..])
  }

  /** Normalising a normalised list changes nothing. */
  lemma NormalizeTagsIdempotent(tags: seq<string>)
    ensures NormalizeTags(NormalizeTags(tags)) == NormalizeTags(tags)
  {
    var once := NormalizeTags(tags);
    var twice := NormalizeTags(once);
    forall k | 0 <= k < |tags|
      ensures twice[k] == once[k]
    {
      NormalizeTagIdempotent(tags[k]);
    }
  }

  /** The hashtag line: the normalised tags joined by single spaces. */
  function HashtagLine(tags: seq<string>): string
  {
    Join(NormalizeTags(tags), " ")
  }

  /** How a template literal renders an optional string: absent becomes "undefined". */
  function TemplateText(s: Option<string>): (r: string)
    ensures s.Some? ==> r == s.value
    ensures s.None? ==> r == "undefined"
  {
    match s
    case Some(t) => t
    case None => "undefined"
  }

  /** The text both the copy and the Instagram handlers build; `None` when the
      post has no hashtag list, where `hashtags.map` throws before any text exists. */
  function ComposePostText(post: GeneratedPost): (r: Option<string>)
    ensures r.Some? <==> post.hashtags.Some?
    ensures r.Some? ==> StartsWith(r.value, TemplateText(post.caption) + "\n\n")
  {
    match post.hashtags
    case None => None
    case Some(tags) => Some(TemplateText(post.caption) + "\n\n" + HashtagLine(tags))
  }

  /** Splitting the hashtag line on spaces gives back exactly the normalised tags,
      in order and with duplicates, when no tag holds a space. */
  lemma HashtagLineTokens(tags: seq<string>)
    requires |tags| >= 1
    requires forall k :: 0 <= k < |tags| ==> ' ' !in tags[k]
    ensures Split(HashtagLine(tags), ' ') == NormalizeTags(tags)
  {
    var norm := NormalizeTags(tags);
    forall k | 0 <= k < |norm|
      ensures ' ' !in norm[k]
    {
      assert norm[k] == tags[k] || norm[k] == "#" + tags[k];
    }
    SplitJoin(norm, ' ');
  }

  /** The post text is the caption, a blank line, then text whose space-separated
      tokens are the normalised tags. */
  lemma PostTextTokens(post: GeneratedPost)
    requires post.hashtags.Some? && |post.hashtags.value| >= 1
    requires forall k :: 0 <= k < |post.hashtags.value| ==> ' ' !in post.hashtags.value[k]
    ensures var text := ComposePostText(post).value;
      var head := TemplateText(post.caption) + "\n\n";
      && text[..|head|] == head
      && Split(text[|head|..], ' ') == NormalizeTags(post.hashtags.value)
  {
    var head := TemplateText(post.caption) + "\n\n";
    var line := HashtagLine(post.hashtags.value);
    assert (head + line)[|head|..] == line;
    HashtagLineTokens(post.hashtags.value);
  }

  /** Tags none of which starts with `#` each gain exactly one `#`. */
  lemma UnhashedTagsGainOneHash(tags: seq<string>)
    requires forall k :: 0 <= k < |tags| ==> !HasHash(tags[k])
    ensures forall k :: 0 <= k < |tags| ==> NormalizeTags(tags)[k] == "#" + tags[k]
  {
  }

  /** None of the stubbed tags starts with `#`. */
  lemma StubTagsUnhashed()
    ensures forall k :: 0 <= k < |StubTags| ==> !HasHash(StubTags[k])
  {
    forall k | 0 <= k < |StubTags|
      ensures !HasHash(StubTags[k])
    {
      assert StubTags[k][0] != '#';
      assert StubTags[k][..1] != "#";
    }
  }

  /** The stubbed tags, each with `#` in front, spelled out (first half). */
  lemma StubTagsSpelledLow()
    ensures forall k :: 0 <= k < 4 ==> "#" + StubTags[k] == StubHashtags[k]
  {
    assert "#" + StubTags[0] == StubHashtags[0];
    assert "#" + StubTags[1] == StubHashtags[1];
    assert "#" + StubTags[2] == StubHashtags[2];
    assert "#" + StubTags[3] == StubHashtags[3];
  }

  /** The stubbed tags, each with `#` in front, spelled out (second half). */
  lemma StubTagsSpelledHigh()
    ensures forall k :: 4 <= k < 8 ==> "#" + StubTags[k] == StubHashtags[k]
  {
    assert "#" + StubTags[4] == StubHashtags[4];
    assert "#" + StubTags[5] == StubHashtags[5];
    assert "#" + StubTags[6] == StubHashtags[6];
    assert "#" + StubTags[7] == StubHashtags[7];
  }

  /** The fixed hashtag list of the stubbed analysis service: none starts with `#`,
      so each of the eight gains exactly one. */
  lemma StubTagsNormalized()
    ensures NormalizeTags(StubTags) == StubHashtags
  {
    StubTagsUnhashed();
    UnhashedTagsGainOneHash(StubTags);
    StubTagsSpelledLow();
    StubTagsSpelledHigh();
  }

  const StubTags: seq<string> :=
    ["travelgram", "cityscape", "urbanexploration", "streetphotography",
     "adventure", "exploremore", "wanderlust", "inspiration"]

  const StubHashtags: seq<string> :=
    ["#travelgram", "#cityscape", "#urbanexploration", "#streetphotography",
     "#adventure", "#exploremore", "#wanderlust", "#inspiration"]
}

=== FILE: py_text.dfy ===
/** The two Python string methods the event handler relies on: `str.split` with a
    non-empty separator, and `str.strip()` with no argument. */
module PyText {
  import opened Common
  import opened Strings

  /** `s.split(sep)` in Python: scan left to right, cut at each occurrence of `sep`
      that starts after the previous cut, and keep the pieces in between. */
  function PySplit(s: string, sep: string): (r: seq<string>)
    requires |sep| > 0
    ensures |r| >= 1
    ensures forall k :: 0 <= k < |r| ==> !Contains(r[k], sep)
    decreases |s|
  {
    match IndexOf(s, sep)
    case None => [s]
    case Some(i) =>
      var head := s[..i];
      assert !Contains(head, sep) by {
        if Contains(head, sep) {
          OccursInPrefix(s, sep, i, IndexOf(head, sep).value);
        }
      }
      [head] + PySplit(s[i + |sep|..], sep)
  }

  function Last<T>(xs: seq<T>): T
    requires |xs| > 0
  {
    xs[|xs| - 1]
  }

  /** One step of a split: the text before the first separator, then the split
      of what follows it. */
  lemma PySplitStep(s: string, sep: string, i: nat)
    requires |sep| > 0
    requires IndexOf(s, sep) == Some(i)
    ensures i + |sep| <= |s| && s[i..i + |sep|] == sep
    ensures s[..i + |sep|][i..] == sep
    ensures PySplit(s, sep) == [s[..i]] + PySplit(s[i + |sep|..], sep)
  {
  }

  lemma JoinCons(h: string, xs: seq<string>, sep: string)
    requires |xs| >= 1
    ensures Join([h] + xs, sep) == h + sep + Join(xs, sep)
  {
    assert ([h] + xs)[1..] == xs;
  }

  /** Joining the pieces of a split with the same separator gives back the string. */
  lemma {:induction false} JoinPySplit(s: string, sep: string)
    requires |sep| > 0
    ensures Join(PySplit(s, sep), sep) == s
    decreases |s|
  {
    var found := IndexOf(s, sep);
    if found.Some? {
      var i := found.value;
      var tail := s[i + |sep|..];
      PySplitStep(s, sep, i);
      JoinPySplit(tail, sep);
      JoinCons(s[..i], PySplit(tail, sep), sep);
      assert s == s[..i] + s[i..i + |sep|] + tail;
    }
  }

  /** `r` ends `s`, and unless it is all of `s` the separator sits right before it. */
  predicate SuffixAfterSep(s: string, sep: string, r: string)
  {
    && |r| <= |s| && s[|s| - |r|..] == r
    && (|r| == |s| || (|sep| <= |s| - |r| && s[|s| - |r| - |sep|..|s| - |r|] == sep))
  }

  /** The last piece of a split is a suffix of `s`, and unless it is all of `s`
      the separator sits right before it. */
  lemma {:induction false} LastPieceSuffix(s: string, sep: string)
    requires |sep| > 0
    ensures SuffixAfterSep(s, sep, Last(PySplit(s, sep)))
    decreases |s|
  {
    var found := IndexOf(s, sep);
    if found.Some? {
      var i := found.value;
      LastPieceOfStep(s, sep, i);
      LastPieceSuffix(s[i + |sep|..], sep);
      SuffixAfterSepShift(s, sep, i + |sep|, Last(PySplit(s[i + |sep|..], sep)));
    } else {
      assert PySplit(s, sep) == [s];
      assert s[0..] == s;
    }
  }

  /** After a first separator at `i`, the last piece is the last piece of the rest. */
  lemma LastPieceOfStep(s: string, sep: string, i: nat)
    requires |sep| > 0
    requires IndexOf(s, sep) == Some(i)
    ensures i + |sep| <= |s| && s[i..i + |sep|] == sep
    ensures Last(PySplit(s, sep)) == Last(PySplit(s[i + |sep|..], sep))
  {
    PySplitStep(s, sep, i);
    LastOfCons(s[..i], PySplit(s[i + |sep|..], sep));
  }

  lemma LastOfCons<T>(h: T, xs: seq<T>)
    requires |xs| > 0
    ensures Last([h] + xs) == Last(xs)
  {
  }

  /** A suffix after a separator in `s[k..]` is one in `s`, when `s[..k]` ends with
      the separator. */
  lemma SuffixAfterSepShift(s: string, sep: string, k: nat, r: string)
    requires k <= |s| && k >= |sep| && s[k - |sep|..k] == sep
    requires SuffixAfterSep(s[k..], sep, r)
    ensures SuffixAfterSep(s, sep, r)
  {
    if |r| == |s| - k {
      ShiftWhole(s, sep, k, r);
    } else {
      ShiftInner(s, sep, k, r);
    }
  }

  /** The rest after the separator is all of the suffix. */
  lemma ShiftWhole(s: string, sep: string, k: nat, r: string)
    requires k <= |s| && k >= |sep| && s[k - |sep|..k] == sep
    requires r == s[k..]
    ensures SuffixAfterSep(s, sep, r)
  {
  }

  /** The suffix sits after a separator inside `s[k..]`. */
  lemma ShiftInner(s: string, sep: string, k: nat, r: string)
    requires k <= |s| && |r| < |s| - k
    requires SuffixAfterSep(s[k..], sep, r)
    ensures SuffixAfterSep(s, sep, r)
  {
    var m := |s| - k - |r|;
    SliceOfSuffix(s, k, m, |s| - k);
    SliceOfSuffix(s, k, m - |sep|, m);
  }

  /** A slice of a suffix is a slice of the whole. */
  lemma SliceOfSuffix<T>(s: seq<T>, k: nat, a: nat, b: nat)
    requires k <= |s| && a <= b <= |s| - k
    ensures s[k..][a..b] == s[k + a..k + b]
    ensures b == |s| - k ==> s[k..][a..] == s[k + a..]
  {
  }

  /** The last piece is the whole string exactly when the separator does not occur. */
  lemma LastPieceWhole(s: string, sep: string)
    requires |sep| > 0
    ensures Last(PySplit(s, sep)) == s <==> !Contains(s, sep)
  {
    var found := IndexOf(s, sep);
    if found.Some? {
      var i := found.value;
      LastPieceOfStep(s, sep, i);
      LastPieceSuffix(s[i + |sep|..], sep);
      assert |Last(PySplit(s, sep))| < |s|;
    } else {
      assert PySplit(s, sep) == [s];
    }
  }

  /** The last piece of a split: a suffix of `s` holding no `sep`; it is all of `s`
      exactly when `sep` does not occur in `s`, and otherwise the text before it ends
      with `sep`. */
  lemma LastPieceShape(s: string, sep: string)
    requires |sep| > 0
    ensures var r := Last(PySplit(s, sep));
      && EndsWith(s, r)
      && !Contains(r, sep)
      && (r == s <==> !Contains(s, sep))
      && (r != s ==> EndsWith(s[..|s| - |r|], sep))
  {
    var ps := PySplit(s, sep);
    var r := Last(ps);
    LastPieceSuffix(s, sep);
    LastPieceWhole(s, sep);
    assert !Contains(ps[|ps| - 1], sep);
    var n := |s| - |r|;
    if r != s {
      assert s[..n][n - |sep|..] == s[n - |sep|..n];
    }
  }

  /** The characters Python's `str.isspace()` accepts. */
  predicate IsPySpace(c: char)
  {
    || ('\U{9}' <= c <= '\U{D}')
    || ('\U{1C}' <= c <= '\U{20}')
    || c == '\U{85}' || c == '\U{A0}' || c == '\U{1680}'
    || ('\U{2000}' <= c <= '\U{200A}')
    || c == '\U{2028}' || c == '\U{2029}' || c == '\U{202F}' || c == '\U{205F}'
    || c == '\U{3000}'
  }

  predicate AllSpace(s: string)
  {
    forall i :: 0 <= i < |s| ==> IsPySpace(s[i])
  }

  /** The end of the run of whitespace that starts at `from`. */
  function SpaceRunEnd(s: string, from: nat): (n: nat)
    requires from <= |s|
    ensures from <= n <= |s|
    ensures forall i :: from <= i < n ==> IsPySpace(s[i])
    ensures n < |s| ==> !IsPySpace(s[n])
    decreases |s| - from
  {
    if from < |s| && IsPySpace(s[from]) then SpaceRunEnd(s, from + 1) else from
  }

  /** The start of the run of whitespace that ends at `hi`, going no lower than `lo`. */
  function SpaceRunStart(s: string, lo: nat, hi: nat): (m: nat)
    requires lo <= hi <= |s|
    ensures lo <= m <= hi
    ensures forall i :: m <= i < hi ==> IsPySpace(s[i])
    ensures m > lo ==> !IsPySpace(s[m - 1])
    decreases hi
  {
    if lo < hi && IsPySpace(s[hi - 1]) then SpaceRunStart(s, lo, hi - 1) else hi
  }

  /** `s.strip()`: the text between the leading and the trailing whitespace. */
  function Strip(s: string): (r: string)
    ensures |r| == 0 || (!IsPySpace(r[0]) && !IsPySpace(r[|r| - 1]))
    ensures exists a :: StrippedAt(s, r, a)
  {
    var a := SpaceRunEnd(s, 0);
    var b := SpaceRunStart(s, a, |s|);
    assert StrippedAt(s, s[a..b], a);
    s[a..b]
  }

  /** `r` sits at offset `a` of `s` with only whitespace around it. */
  predicate StrippedAt(s: string, r: string, a: int)
  {
    && 0 <= a && a + |r| <= |s|
    && s[a..a + |r|] == r
    && AllSpace(s[..a])
    && AllSpace(s[a + |r|..])
  }

  /** Stripping twice is stripping once. */
  lemma StripIdempotent(s: string)
    ensures Strip(Strip(s)) == Strip(s)
  {
    var r := Strip(s);
    assert SpaceRunEnd(r, 0) == 0;
    assert SpaceRunStart(r, 0, |r|) == |r|;
    assert r[0..|r|] == r;
  }
}

=== FILE: strings.dfy ===
/** Sequence-of-character operations used by both the browser and the server code:
    prefix tests, substring search, and joining/splitting on a separator. */
module Strings {
  import opened Common

  /** `s.startsWith(prefix)` in JavaScript, `s.startswith(prefix)` in Python. */
  predicate StartsWith(s: string, prefix: string)
  {
    |prefix| <= |s| && s[..|prefix|] == prefix
  }

  predicate EndsWith(s: string, suffix: string)
  {
    |suffix| <= |s| && s[|s| - |suffix|..] == suffix
  }

  /** `sub` occurs in `s` starting at index `i`. */
  predicate OccursAt(s: string, sub: string, i: int)
  {
    0 <= i && i + |sub| <= |s| && s[i..i + |sub|] == sub
  }

  /** The first index at or after `from` where `sub` occurs in `s`, if any. */
  function IndexOfFrom(s: string, sub: string, from: nat): (r: Option<nat>)
    ensures r.Some? ==> from <= r.value && OccursAt(s, sub, r.value)
    ensures forall j :: from <= j && (r.None? || j < r.value) ==> !OccursAt(s, sub, j)
    decreases |s| - from
  {
    if from + |sub| > |s| then None
    else if OccursAt(s, sub, from) then Some(from)
    else IndexOfFrom(s, sub, from + 1)
  }

  /** The first index where `sub` occurs in `s`, if any. */
  function IndexOf(s: string, sub: string): Option<nat>
  {
    IndexOfFrom(s, sub, 0)
  }

  /** Python's `sub in s` on two strings. */
  predicate Contains(s: string, sub: string)
  {
    IndexOf(s, sub).Some?
  }

  /** An occurrence anywhere in a prefix of `s` is an occurrence in `s`. */
  lemma OccursInPrefix(s: string, sub: string, n: nat, j: int)
    requires n <= |s|
    requires OccursAt(s[..n], sub, j)
    ensures OccursAt(s, sub, j)
  {
    assert s[..n][j..j + |sub|] == s[j..j + |sub|];
  }

  /** `parts.join(sep)` in JavaScript: the parts in order with `sep` between
      neighbours; the empty list joins to the empty string. */
  function Join(parts: seq<string>, sep: string): string
  {
    if |parts| == 0 then ""
    else if |parts| == 1 then parts[0]
    else parts[0] + sep + Join(parts[1..], sep)
  }

  /** `s.split(c)` in JavaScript for a one-character separator: the maximal runs
      between separators, so there is always at least one piece. */
  function Split(s: string, c: char): (r: seq<string>)
    ensures |r| >= 1
    decreases |s|
  {
    if |s| == 0 then [""]
    else
      var rest := Split(s[1..], c);
      if s[0] == c then [""] + rest
      else [[s[0]] + rest[0]] + rest[1..]
  }

  /** A piece without the separator splits to itself. */
  lemma {:induction false} SplitWithoutSeparator(p: string, c: char)
    requires c !in p
    ensures Split(p, c) == [p]
    decreases |p|
  {
    if |p| > 0 {
      SplitWithoutSeparator(p[1..], c);
      assert [p[0]] + p[1..] == p;
    }
  }

  /** Splitting `p + [c] + rest` peels off `p` when `p` holds no separator. */
  lemma {:induction false} SplitPeel(p: string, c: char, rest: string)
    requires c !in p
    ensures Split(p + [c] + rest, c) == [p] + Split(rest, c)
    decreases |p|
  {
    var s := p + [c] + rest;
    if |p| == 0 {
      assert s[0] == c && s[1..] == rest;
    } else {
      SplitPeel(p[1..], c, rest);
      assert s[0] == p[0] && s[1..] == p[1..] + [c] + rest;
      assert [p[0]] + p[1..] == p;
    }
  }

  /** Joining with a one-character separator and splitting on it again gives back
      the parts, provided none of them holds the separator and there is one at least. */
  lemma {:induction false} SplitJoin(parts: seq<string>, c: char)
    requires |parts| >= 1
    requires forall k :: 0 <= k < |parts| ==> c !in parts[k]
    ensures Split(Join(parts, [c]), c) == parts
    decreases |parts|
  {
    if |parts| == 1 {
      SplitWithoutSeparator(parts[0], c);
    } else {
      SplitJoin(parts[1..], c);
      SplitPeel(parts[0], c, Join(parts[1..], [c]));
      assert [parts[0]] + parts[1..] == parts;
    }
  }
}

=== FILE: upload_zone.dfy ===
/** The drop zone: a drag-active flag and the choice of which file, if any, is handed
    on to the page's upload handler for each browser event. */
module UploadZone {
  import opened Common
  import opened Strings

  datatype ZoneState = ZoneState(isDragActive: bool)

  datatype ZoneEvent =
    | DragOver
    | DragLeave
    | Drop(dropped: seq<File>)
    | Select(selected: seq<File>)

  /** The zone after an event, and the file passed to `onImageUpload` (at most one
      per event, so an optional file). */
  datatype ZoneStep = ZoneStep(state: ZoneState, upload: Option<File>)

  /** The media type's top-level type is `image`: `file.type.startsWith('image/')`. */
  predicate IsImage(f: File)
  {
    StartsWith(f.mediaType, "image/")
  }

  /** `files.find(...)` by position: the first index holding an image file. */
  function FirstImageIndex(files: seq<File>): (r: Option<nat>)
    ensures r.None? <==> forall k :: 0 <= k < |files| ==> !IsImage(files[k])
    ensures r.Some? ==>
      && r.value < |files|
      && IsImage(files[r.value])
      && forall k :: 0 <= k < r.value ==> !IsImage(files[k])
  {
    if |files| == 0 then None
    else if IsImage(files[0]) then Some(0)
    else match FirstImageIndex(files[1..])
      case None => None
      case Some(k) => Some(k + 1)
  }

  /** `files.find(file => file.type.startsWith('image/'))`. */
  function FirstImage(files: seq<File>): (r: Option<File>)
    ensures r.None? <==> forall k :: 0 <= k < |files| ==> !IsImage(files[k])
    ensures r.Some? ==>
      exists k :: 0 <= k < |files| && files[k] == r.value && IsImage(files[k])
        && forall j :: 0 <= j < k ==> !IsImage(files[j])
  {
    match FirstImageIndex(files)
    case None => None
    case Some(k) => Some(files[k])
  }

  /** One event: drag-over raises the flag, drag-leave and drop lower it, a drop
      forwards the first image file, a file selection forwards the first selected file
      whatever its type and leaves the flag alone. */
  function Step(s: ZoneState, e: ZoneEvent): (r: ZoneStep)
    ensures e.DragOver? ==> r.state.isDragActive
    ensures e.DragLeave? || e.Drop? ==> !r.state.isDragActive
    ensures e.Select? ==> r.state == s
    ensures e.DragOver? || e.DragLeave? ==> r.upload.None?
    ensures e.Drop? ==>
      (r.upload.None? <==> forall k :: 0 <= k < |e.dropped| ==> !IsImage(e.dropped[k]))
    ensures e.Drop? && r.upload.Some? ==>
      exists k :: 0 <= k < |e.dropped| && e.dropped[k] == r.upload.value && IsImage(e.dropped[k])
        && forall j :: 0 <= j < k ==> !IsImage(e.dropped[j])
    ensures e.Select? ==>
      (r.upload.Some? <==> |e.selected| > 0) && (r.upload.Some? ==> r.upload.value == e.selected[0])
  {
    match e
    case DragOver => ZoneStep(ZoneState(true), None)
    case DragLeave => ZoneStep(ZoneState(false), None)
    case Drop(files) => ZoneStep(ZoneState(false), FirstImage(files))
    case Select(files) => ZoneStep(s, if |files| > 0 then Some(files[0]) else None)
  }

  /** The zone after a run of events. */
  function Run(s: ZoneState, events: seq<ZoneEvent>): ZoneState
    decreases |events|
  {
    if |events| == 0 then s else Run(Step(s, events[0]).state, events[1..])
  }

  predicate IsDragEvent(e: ZoneEvent)
  {
    !e.Select?
  }

  /** The flag after a run is set exactly when the last drag-related event was a
      drag-over; with no such event it is what it was. */
  lemma {:induction false} DragFlagFollowsLastDragEvent(s: ZoneState, events: seq<ZoneEvent>)
    ensures Run(s, events).isDragActive
      == if forall k :: 0 <= k < |events| ==> !IsDragEvent(events[k]) then s.isDragActive
         else events[LastDragIndex(events)].DragOver?
    decreases |events|
  {
    if |events| > 0 {
      var tail := events[1..];
      DragFlagFollowsLastDragEvent(Step(s, events[0]).state, tail);
      if forall k :: 0 <= k < |tail| ==> !IsDragEvent(tail[k]) {
        if IsDragEvent(events[0]) {
          assert LastDragIndex(events) == 0;
        } else {
          forall k | 0 <= k < |events|
            ensures !IsDragEvent(events[k])
          {
            if k > 0 { assert events[k] == tail[k - 1]; }
          }
        }
      } else {
        var j :| 0 <= j < |tail| && IsDragEvent(tail[j]);
        assert IsDragEvent(events[j + 1]);
        assert LastDragIndex(events) == LastDragIndex(tail) + 1;
      }
    }
  }

  /** Index of the last drag-related event. */
  function LastDragIndex(events: seq<ZoneEvent>): (r: nat)
    requires exists k :: 0 <= k < |events| && IsDragEvent(events[k])
    ensures r < |events| && IsDragEvent(events[r])
    ensures forall k :: r < k < |events| ==> !IsDragEvent(events[k])
    decreases |events|
  {
    if IsDragEvent(events[|events| - 1]) then |events| - 1
    else
      var k :| 0 <= k < |events| && IsDragEvent(events[k]);
      assert k < |events| - 1;
      assert IsDragEvent(events[..|events| - 1][k]);
      LastDragIndex(events[..|events| - 1])
  }
}
